=== FILE: README.md ===
# EMI and expense tracker: a Dafny model of its list logic

The tracker keeps two lists of records: the active items and the archive.
Each active item is either a monthly EMI (a loan or savings instalment) or a
constant monthly expense. Each one carries a "paid this month" flag stamped
with the month it was paid for. The model covers what `script.js` does to
these lists once storage, the DOM and the clock are stripped away:

- marking an item paid or unpaid;
- the month rollover that clears stale paid flags;
- moving finished items into the archive;
- merging an imported backup;
- adding, editing and deleting items;
- the "period left" label with its urgency class, and the ordinal suffix of a due day;
- grouping items for display;
- the money totals of the group headers and the summary cards.

Each operation takes the lists and returns new ones. The clock comes in as
parameters:

- `today` is a day number;
- `now` is the archive timestamp;
- `month` is the current month string.

The user's answer to a confirmation dialog comes in as `confirmed`.

Modules, one per component: `Decimal` (number text), `Seqs` (order-keeping
filters), `Options`, `Records` (the data model), `Months`
(`getCurrentMonth`), `Payments`, `Archive`, `Import`, `Edits`, `Period`,
`Grouping`, `Summary`.

Two rules run through the model:

- An item counts as paid only when its flag is set and its stamp equals the
  current month (`Records.IsPaid`).
- An item counts as completed when it has an end date and that date is
  before today (`Records.IsCompleted`).

## Model

| member | source | states |
|---|---|---|
| `Months.PadStart2` | script.js:13 | pads a one-digit month number with a leading "0"; longer text is unchanged |
| `Months.FormatMonth` | script.js:11-14 | the month stamp is "year-MM": at least four characters with a dash before the last two, so it is never the empty stamp of an unpaid item |
| `Months.PaddedMonth` | script.js:13 | a month number from 1 to 12, padded, is two digits that read back as that number |
| `Months.FormatMonthRoundTrip` | script.js:11-14 | parsing a month stamp gives back the year and the month number (1 to 12) it was made from |
| `Months.FormatMonthInjective` | script.js:11-14 | two different months never share a stamp, so comparing stamps compares months |
| `Records.Stamped` | script.js:128-131 | an archived record is the item unchanged plus the archive timestamp, in input order |
| `Payments.MarkAsPaid` | script.js:165-186 | afterwards the item is paid with the current month's stamp and every other index is unchanged; if it was already paid for this month the list is unchanged and nothing is written |
| `Payments.UnmarkAsPaid` | script.js:189-195 | the item ends with the flag cleared and an empty stamp, so it is unpaid for every month; all other fields and indices are unchanged |
| `Payments.ClearIfStale` | script.js:784-788 | a stale item loses its paid flag and gets an empty stamp; an item that was not stale is untouched; nothing but flag and stamp ever changes; afterwards the item is never stale and whether it counts as paid this month is unchanged |
| `Payments.ResetPaymentStatusIfNewMonth` | script.js:778-794 | the loop yields the rollover of the list; no item is left with a paid flag for another month; the list is written back exactly when some item was stale |
| `Payments.RolloverKeepsPaidStatus` | script.js:778-794 | the rollover never changes which items count as paid; items paid for the current month, and all items that were not stale, are unchanged |
| `Payments.RolloverIdempotent` | script.js:778-794 | running the rollover a second time in the same month changes nothing |
| `Payments.RolloverIntoNewMonth` | script.js:784-788 | when no stamp is the new month, no item keeps its paid flag after the rollover |
| `Archive.StillActive` | script.js:121-139 | every item kept active has no end date or an end date that is not before today |
| `Archive.Completed` | script.js:121-139 | every item sent to the archive has an end date before today |
| `Archive.SplitIsPartition` | script.js:112-145 | every item lands in exactly one of the two parts, as often as it occurs; both parts keep the input order; an item is kept active exactly when it has not ended |
| `Archive.NothingCompleted` | script.js:141-144 | when no item has ended, all items stay active in place and nothing is archived |
| `Archive.CompletedEmpty` | script.js:141 | nothing goes to the archive exactly when no item has ended |
| `Archive.SplitCompleted` | script.js:118-139 | the loop puts each item that has not ended into the active list and each ended item, stamped, into the archive part, both in input order |
| `Archive.AutoArchiveCompleted` | script.js:112-145 | stores are written back exactly when some item has ended; the new active list keeps only items that have not ended, in order; the old archive is an unchanged prefix followed by the ended items; active list plus new archive entries hold the original items exactly |
| `Import.Reconcile` | script.js:885-898 | an imported item keeps its paid flag only when stamped with the current month; otherwise flag and stamp are cleared; whether it counts as paid is unchanged; nothing else in the record changes |
| `Import.ReconcileAll` | script.js:885-898 | the i-th result is the i-th imported item with only its flag and stamp possibly changed, and it counts as paid exactly when the import did; every result is paid only together with the current month's stamp, and an unpaid one has an empty stamp |
| `Import.ReconcileIdempotent` | script.js:885-898 | reconciling twice is reconciling once; items paid for the current month come through unchanged |
| `Import.ImportData` | script.js:857-935 | an unrecognised file is rejected and a declined merge writes nothing; otherwise the existing stores are unchanged prefixes. After them come the reconciled imports that have not ended, then the imported archive, then the ended imports stamped. No item is lost, and no new active item has ended or carries a stale flag |
| `Edits.FormRecord` | script.js:720-741 | a submitted record is unpaid with an empty stamp, keeps the form's fields, and has loan details only when it is an EMI |
| `Edits.SubmitForm` | script.js:743-754 | an add appends the new, unpaid record; an edit replaces the record at the index, keeps its paid flag and stamp, and leaves every other index unchanged |
| `Edits.SpliceStart` | script.js:704 | the splice position is the index itself when in range; a negative index counts from the end; the position is clamped to the list |
| `Edits.DeleteEMI` | script.js:701-707 | when confirmed, exactly the item at the splice position is removed and the rest keep their order; an in-range index removes that index; otherwise (declined, or position past the end) the list is unchanged |
| `Period.PeriodTextRoundTrip` | script.js:234-241 | reading the corrected period label back as years*365 + months*30 + days gives the day difference; the label is never empty |
| `Period.PeriodTextInjective` | script.js:234-241 | different day differences never share a corrected label |
| `Period.PeriodTextAsWrittenMiscounts` | script.js:234-241 | as written, 400 days is labelled "1y 1m 10d", which reads back as 405 days |
| `Period.CalculatePeriodLeftAsWritten` | script.js:219-253 | `calculatePeriodLeft` as the program runs it: no end date gives "Ongoing"/normal, a negative difference "Completed"/normal; the text is never empty; the class is that of the corrected function; below one year it equals the corrected result, so a zero difference gives "0d"; for every difference d of 0 or more the text reads back as 365*(d div 365) + 30*((d mod 365) div 30) + d mod 30, the day part being taken from the whole difference |
| `Period.CalculatePeriodLeft` | script.js:219-253 | the corrected `calculatePeriodLeft` (day count taken after whole years and months): no end date gives "Ongoing"/normal and a negative difference gives "Completed"/normal. Otherwise the label reads back to the difference, and a zero difference gives "0d". The text is never empty. Savings are always normal; other items are warning exactly for 31 to 90 days and critical exactly above 90 |
| `Period.UrgencyMonotone` | script.js:248-250 | for items still running, a later end date never gives a more urgent class |
| `Period.JsRem` | script.js:572 | JavaScript's remainder: the dividend is the divisor times the quotient rounded toward zero plus the remainder, which lies strictly between minus and plus the divisor, takes the dividend's sign, and agrees with the mathematical remainder for non-negative numbers |
| `Period.DaySuffix` | script.js:570-582 | the suffix is always one of "st", "nd", "rd", "th", and 11 to 13 always get "th" |
| `Period.DaySuffixOrdinal` | script.js:570-582 | for days 1 to 31 the suffix is the English ordinal one (st for 1, 21 and 31; nd for 2 and 22; rd for 3 and 23; th otherwise); zero and negative days get "th" |
| `Grouping.Label` | script.js:378-402 | each group key has a non-empty header text, the text of script.js without its emoji |
| `Grouping.LabelInjective` | script.js:378-403 | distinct group keys have distinct header texts, so grouping by header text is grouping by key |
| `Grouping.KeyOf` | script.js:375-403 | due days up to 10 are "early", 11 to 20 "mid", and above 20 "late". Status is ongoing without an end date, completed when the end date has passed, and active otherwise. By category, savings go to Savings and everything else to Loan/Debt; by type, EMIs go to EMI and everything else to Constant Expense; an unrecognised choice puts every item in All Items |
| `Grouping.BucketKeepsOrder` | script.js:405-406 | a group keeps the relative order of its members |
| `Grouping.OpenGroup` | script.js:405-406 | an item whose key has no group yet opens a new group at the end, and the result is still a grouping of the longer list |
| `Grouping.JoinGroup` | script.js:405-406 | an item whose key has a group joins the end of that group, and the result is still a grouping of the longer list |
| `Grouping.MemberOfItsGroupOnly` | script.js:370-410 | an item is in a group exactly when the group has the item's key; with distinct keys, each item is in exactly one group |
| `Grouping.GroupEMIs` | script.js:370-410 | "none" gives one group holding the whole list. Otherwise keys are distinct and each group is exactly the items with its key, in order, never empty. Every item's key has a group, and the group sizes add up to the number of items |
| `Grouping.GroupByKey` | script.js:373-407 | the loop over the items builds a grouping of the whole list: distinct keys, each group exactly the items with its key in order, every item's key present |
| `Summary.GroupTotal` | script.js:413-430 | the group total is the sum of the amounts of the items neither paid for the current month nor past their end date |
| `Summary.GroupTotalContribution` | script.js:415-429 | wherever it stands in the list, an item paid this month or past its end date adds nothing to a total, and any other item adds its amount |
| `Summary.RemainingDebt` | script.js:621-625 | a loan EMI owes exactly the larger of total minus principal paid and 0; savings and constant expenses owe nothing |
| `Summary.TotalDebt` | script.js:620-627 | the total debt is never negative |
| `Summary.TotalDebtContribution` | script.js:620-627 | wherever it stands in the list, each item adds exactly its remaining principal to the total debt |
| `Summary.TotalDebtCoversEachLoan` | script.js:620-627 | each item's remaining principal is part of the total debt |
| `Summary.TotalDebtWithoutLoans` | script.js:620-627 | with no loan EMIs the total debt is 0 |
| `Summary.UpdateSummary` | script.js:585-627 | the item count is the list length. The monthly total equals the group total of the whole list and is the debt part plus the savings part. Each part sums the outstanding items of its category. The total debt is the non-negative sum of remaining principals |

## Left out

- DOM and rendering are not modelled: `renderTable`, `generateRowHTML`, the form and category field toggles, modals, the theme and the sort controls.
- `renderTable` finds an item's index by (name, amount, due day) before it calls the payment, edit and delete handlers. That lookup is not modelled; the handlers take the index directly.
- Persistence (`localStorage` load and save, sort preferences) is not modelled: the stores are sequences passed in and returned. Where the source writes back only on a change, an out-parameter (`changed`, `hasChanges`, `saved`) reports whether it would write.
- The clock is parameters: `today` is a day number, `now` is the archive timestamp as an integer, and `month` is the current month string. `FormatMonth` builds that string from a year and a month index. `Records.Stamped`: the source reads the clock once per archived item (script.js:130, script.js:910), so items archived in one pass can get different timestamps; the model gives them all the same `now`.
- Dialogs and files are not modelled: the answer to `confirm` is a parameter, and alerts, toasts, `FileReader`, JSON parsing and its error alert, and the export through `Blob` are left out. An import starts from the parsed file shape (`Import.ImportFile`).
- The one-minute refresh timer, the search debounce and the toast timeouts are left out.
- `sw.js` (service-worker caching) is not part of this model.
- End dates are compared at day granularity everywhere: an item is completed when its end day is before today. The source strips the time of day only in `autoArchiveCompleted`. The summary, the group total and the import compare the end date's midnight with the current instant, so there an item ending today already counts as completed. `getPeriodInDays` and `calculatePeriodLeft` round a millisecond difference up to days; the model takes that day difference as an integer.
- Amounts are integers; `parseFloat`, floating-point rounding, NaN and currency and date formatting (`toLocaleString`) are not modelled.
- A record without `emiCategory` reads as "expense" (Loan/Debt) wherever it is used; the model folds this default into `Category.Debt`. Missing loan fields are `None` and read as 0.
- `filterBySearch` is not modelled: it needs case folding and the float-to-text conversion of amounts. `sortEMIs` is not modelled either: its text keys use `localeCompare`.
- `calculatePeriodLeft` takes an item type argument that it never uses; the model omits it.
- Group headers are modelled by their text without the leading emoji.
- The item counts shown in the import confirmation message are not modelled.
- `Months.FormatMonth`: years are non-negative; a negative year's minus sign is not modelled.
- `Period.Trim`: only the space counts as white space, the only blank the label text can contain.
- `Period.CalculatePeriodLeft`: uses the corrected day count, not the one in script.js:236; the function that matches the program is `Period.CalculatePeriodLeftAsWritten`.
- `Grouping.GroupEMIs`: does not state that groups come in order of first occurrence (the key order of a JavaScript object). Its contract fixes each group's members and their order, but not the order of the groups.
- `Grouping.GroupByKey`: the loop that builds the groups has the same gap. Its contract does not state that groups come in order of first occurrence.
- `Payments.MarkAsPaid`, `Payments.UnmarkAsPaid` and `Edits.SubmitForm` (edit branch) require an index inside the list. With any other index the source throws a TypeError. The one-minute refresh (script.js:803-806), which is left out, runs `autoArchiveCompleted` and can archive items while the edit form is open. The index stored in the form (script.js:677) can then be past the end, which gives a TypeError at script.js:749. Or it can name a later item, which the edit then overwrites with the form's fields and that item's paid status.
- Sealing of committed payments and periodic (non-monthly) frequencies do not exist in `script.js` and are not modelled.

## Findings

| source | as written | input that shows it | evidently intended | confidence | as-written member | corrected member |
|---|---|---|---|---|---|---|
| script.js:236 | the day part of the "period left" label is `diffDays % 30`, taken from the whole difference | 400 days gives "1y 1m 10d" (405 days); 365 days gives "1y 5d" | the days left after whole years and months, `(diffDays % 365) % 30`: 400 days gives "1y 1m 5d" | high; not executed | `Period.PeriodTextAsWrittenMiscounts` | `Period.PeriodTextRoundTrip` |

`Period.CalculatePeriodLeft` uses the corrected text; `Period.CalculatePeriodLeftAsWritten` keeps the text the program produces.

=== FILE: archive.dfy ===
/** Moving finished items into the archive (`autoArchiveCompleted`). */
module Archive {
  import opened Records
  import opened Seqs

  /** The items whose end date has not passed (or that have none), in order. */
  function StillActive(emis: seq<Item>, today: int): (r: seq<Item>)
    ensures forall i :: 0 <= i < |r| ==> r[i] in emis && !IsCompleted(r[i], today)
  {
    FilterMembers(emis, (e: Item) => !IsCompleted(e, today));
    Filter(emis, (e: Item) => !IsCompleted(e, today))
  }

  /** The items whose end date lies before today, in order. */
  function Completed(emis: seq<Item>, today: int): (r: seq<Item>)
    ensures forall i :: 0 <= i < |r| ==> r[i] in emis && IsCompleted(r[i], today)
  {
    FilterMembers(emis, (e: Item) => IsCompleted(e, today));
    Filter(emis, (e: Item) => IsCompleted(e, today))
  }

  /** Every item lands in exactly one of the two parts, as often as it occurs,
      and the active part keeps the original order. */
  lemma SplitIsPartition(emis: seq<Item>, today: int)
    ensures multiset(StillActive(emis, today)) + multiset(Completed(emis, today)) == multiset(emis)
    ensures |StillActive(emis, today)| + |Completed(emis, today)| == |emis|
    ensures IsSubsequence(StillActive(emis, today), emis)
    ensures IsSubsequence(Completed(emis, today), emis)
    ensures forall x :: x in emis ==> (x in StillActive(emis, today) <==> !IsCompleted(x, today))
    ensures forall x :: x in emis ==> (x in Completed(emis, today) <==> IsCompleted(x, today))
  {
    FilterPartition(emis, (e: Item) => !IsCompleted(e, today), (e: Item) => IsCompleted(e, today));
    FilterIsSubsequence(emis, (e: Item) => !IsCompleted(e, today));
    FilterIsSubsequence(emis, (e: Item) => IsCompleted(e, today));
    FilterMembers(emis, (e: Item) => !IsCompleted(e, today));
    FilterMembers(emis, (e: Item) => IsCompleted(e, today));
  }

  /** When nothing has ended, every item stays active, unchanged and in place. */
  lemma NothingCompleted(emis: seq<Item>, today: int)
    requires forall i :: 0 <= i < |emis| ==> !IsCompleted(emis[i], today)
    ensures StillActive(emis, today) == emis
    ensures Completed(emis, today) == []
  {
    FilterKeepsAll(emis, (e: Item) => !IsCompleted(e, today));
    SplitIsPartition(emis, today);
  }

  /** Extending the input by one item extends exactly one of the parts. */
  lemma SplitSnoc(emis: seq<Item>, x: Item, today: int)
    ensures StillActive(emis + [x], today) == StillActive(emis, today) + (if IsCompleted(x, today) then [] else [x])
    ensures Completed(emis + [x], today) == Completed(emis, today) + (if IsCompleted(x, today) then [x] else [])
  {
    FilterSnoc(emis, x, (e: Item) => !IsCompleted(e, today));
    FilterSnoc(emis, x, (e: Item) => IsCompleted(e, today));
  }

  /** One pass over the items: ended items are stamped with `now` for the
      archive, the others stay active. */
  method SplitCompleted(emis: seq<Item>, today: int, now: int) returns (stillActive: seq<Item>, archived: seq<ArchivedItem>)
    ensures stillActive == StillActive(emis, today)
    ensures archived == Stamped(Completed(emis, today), now)
  {
    stillActive, archived := [], [];
    var i := 0;
    while i < |emis|
      invariant 0 <= i <= |emis|
      invariant stillActive == StillActive(emis[..i], today)
      invariant ItemsOf(archived) == Completed(emis[..i], today)
      invariant forall k :: 0 <= k < |archived| ==> archived[k].archivedDate == now
    {
      var emi := emis[i];
      assert emis[..i + 1] == emis[..i] + [emi];
      SplitSnoc(emis[..i], emi, today);
      if emi.endDate.Some? && emi.endDate.value < today {
        assert ItemsOf(archived + [ArchivedItem(emi, now)]) == ItemsOf(archived) + [emi];
        archived := archived + [ArchivedItem(emi, now)];
      } else {
        stillActive := stillActive + [emi];
      }
      i := i + 1;
    }
    assert emis[..i] == emis;
    assert archived == Stamped(Completed(emis, today), now);
  }

  /** Nothing goes to the archive exactly when no item has ended. */
  lemma CompletedEmpty(emis: seq<Item>, today: int)
    ensures Completed(emis, today) == [] <==> forall i :: 0 <= i < |emis| ==> !IsCompleted(emis[i], today)
  {
    if exists i :: 0 <= i < |emis| && IsCompleted(emis[i], today) {
      var i :| 0 <= i < |emis| && IsCompleted(emis[i], today);
      SplitIsPartition(emis, today);
      assert emis[i] in Completed(emis, today);
    } else {
      NothingCompleted(emis, today);
    }
  }

  /** `autoArchiveCompleted`: items whose end date is before `today` are
      appended to the archive with timestamp `now`; all others stay active in
      their original order. The stores are written back (`saved`) only if
      something was archived; otherwise both are returned as they were. */
  method AutoArchiveCompleted(emis: seq<Item>, archive: seq<ArchivedItem>, today: int, now: int)
    returns (newEmis: seq<Item>, newArchive: seq<ArchivedItem>, saved: bool)
    ensures saved <==> exists i :: 0 <= i < |emis| && IsCompleted(emis[i], today)
    ensures !saved ==> newEmis == emis && newArchive == archive
    ensures newEmis == StillActive(emis, today)
    ensures newArchive == archive + Stamped(Completed(emis, today), now)
    ensures forall i :: 0 <= i < |newEmis| ==> !IsCompleted(newEmis[i], today)
    ensures multiset(newEmis) + multiset(ItemsOf(newArchive[|archive|..])) == multiset(emis)
  {
    var stillActive, archivedNow := SplitCompleted(emis, today, now);
    CompletedEmpty(emis, today);
    saved := |archivedNow| > 0;
    if saved {
      newEmis, newArchive := stillActive, archive + archivedNow;
    } else {
      NothingCompleted(emis, today);
      newEmis, newArchive := emis, archive;
    }
    assert newArchive[|archive|..] == archivedNow;
    SplitIsPartition(emis, today);
  }
}

=== FILE: decimal.dfy ===
/** Decimal text of non-negative integers, as JavaScript's template strings
    (`${n}`) print them, and the inverse reading of a digit string. */
module Decimal {

  predicate IsDigit(c: char) {
    '0' <= c <= '9'
  }

  predicate AllDigits(s: string) {
    forall i :: 0 <= i < |s| ==> IsDigit(s[i])
  }

  function DigitValue(c: char): (d: nat)
    requires IsDigit(c)
    ensures d < 10
  {
    c as int - '0' as int
  }

  function DigitChar(d: nat): (c: char)
    requires d < 10
    ensures IsDigit(c) && DigitValue(c) == d
  {
    "0123456789"[d]
  }

  /** The shortest decimal text of n, most significant digit first. */
  function NatToString(n: nat): (s: string)
    ensures 1 <= |s| && AllDigits(s)
    ensures n < 10 <==> |s| == 1
  {
    if n < 10 then [DigitChar(n)] else NatToString(n / 10) + [DigitChar(n % 10)]
  }

  /** The value of a digit string read left to right (`acc * 10 + digit`). */
  function DigitsValue(s: string): nat
    requires AllDigits(s)
  {
    if s == [] then 0 else DigitsValue(s[..|s| - 1]) * 10 + DigitValue(s[|s| - 1])
  }

  /** Reading back the printed text of n gives n. */
  lemma {:induction false} DigitsValueOfNatToString(n: nat)
    ensures DigitsValue(NatToString(n)) == n
  {
    var s := NatToString(n);
    if n >= 10 {
      assert s[..|s| - 1] == NatToString(n / 10);
      DigitsValueOfNatToString(n / 10);
    } else {
      assert s[..|s| - 1] == [];
    }
  }
}

=== FILE: edits.dfy ===
/** Adding, editing and deleting items: the submit handler of the item form
    and `deleteEMI`. */
module Edits {
  import opened Options
  import opened Records

  /** The parsed fields of the item form. The three loan fields hold a value
      only when their input box was filled in. */
  datatype FormInput = FormInput(
    kind: Kind,
    category: Category,
    name: string,
    amount: int,
    dueDay: int,
    endDate: Option<int>,
    totalAmount: Option<int>,
    principalPaid: Option<int>,
    interestPaid: Option<int>)

  /** The record the form submits: loan details are kept for EMIs only, and
      a new record is never paid. */
  function FormRecord(f: FormInput): (r: Item)
    ensures !r.paidThisMonth && r.paidMonth == ""
    ensures r.kind == f.kind && r.category == f.category && r.name == f.name && r.amount == f.amount
    ensures r.dueDay == f.dueDay && r.endDate == f.endDate
    ensures r.kind == Emi ==> r.totalAmount == f.totalAmount && r.principalPaid == f.principalPaid && r.interestPaid == f.interestPaid
    ensures r.kind != Emi ==> r.totalAmount.None? && r.principalPaid.None? && r.interestPaid.None?
  {
    var isEmi := f.kind == Emi;
    Item(f.kind, f.category, f.name, f.amount, f.dueDay, f.endDate,
         if isEmi then f.totalAmount else None,
         if isEmi then f.principalPaid else None,
         if isEmi then f.interestPaid else None,
         false, "")
  }

  /** Form submit: with an edit index the record at that index is replaced and
      keeps its payment status; without one the new record is appended. */
  method SubmitForm(emis: seq<Item>, form: FormInput, editIndex: Option<int>) returns (result: seq<Item>)
    requires editIndex.Some? ==> 0 <= editIndex.value < |emis|
    ensures editIndex.None? ==> result == emis + [FormRecord(form)]
    ensures editIndex.None? ==> forall month :: !IsPaid(result[|emis|], month)
    ensures editIndex.Some? ==> |result| == |emis|
    ensures editIndex.Some? ==>
      var i := editIndex.value;
      && result[i] == FormRecord(form).(paidThisMonth := emis[i].paidThisMonth, paidMonth := emis[i].paidMonth)
      && (forall month :: IsPaid(result[i], month) == IsPaid(emis[i], month))
      && (forall j :: 0 <= j < |emis| && j != i ==> result[j] == emis[j])
  {
    var emiData := FormRecord(form);
    if editIndex.Some? {
      var oldEmi := emis[editIndex.value];
      emiData := emiData.(paidThisMonth := oldEmi.paidThisMonth, paidMonth := oldEmi.paidMonth);
      result := emis[editIndex.value := emiData];
    } else {
      result := emis + [emiData];
    }
  }

  /** Where `Array.prototype.splice(index, 1)` starts on a list of length
      `len`: a negative index counts from the end, and the result is clamped
      to 0..len. */
  function SpliceStart(index: int, len: nat): (k: nat)
    ensures k <= len
    ensures 0 <= index <= len ==> k == index
    ensures index < 0 && 0 <= len + index ==> k == len + index
    ensures len + index < 0 ==> k == 0
    ensures index > len ==> k == len
  {
    if index < 0 then (if len + index < 0 then 0 else len + index)
    else if index > len then len else index
  }

  /** `deleteEMI`: once the user confirms, removes one item at the splice
      position of `index` (nothing when that position is past the end). */
  method DeleteEMI(emis: seq<Item>, index: int, confirmed: bool) returns (result: seq<Item>)
    ensures !confirmed || SpliceStart(index, |emis|) == |emis| ==> result == emis
    ensures confirmed && SpliceStart(index, |emis|) < |emis| ==>
      var k := SpliceStart(index, |emis|);
      && |result| == |emis| - 1
      && (forall j :: 0 <= j < k ==> result[j] == emis[j])
      && (forall j :: k <= j < |result| ==> result[j] == emis[j + 1])
      && multiset(result) + multiset{emis[k]} == multiset(emis)
    ensures confirmed && 0 <= index < |emis| ==> result == emis[..index] + emis[index + 1..]
  {
    result := emis;
    if confirmed {
      var k := SpliceStart(index, |emis|);
      if k < |emis| {
        result := emis[..k] + emis[k + 1..];
        assert emis == emis[..k] + [emis[k]] + emis[k + 1..];
      }
    }
  }
}

=== FILE: grouping.dfy ===
/** Splitting the item list into labelled groups for display (`groupEMIs`). */
module Grouping {
  import opened Records
  import opened Seqs

  /** The "group by" preference. */
  datatype GroupBy = NoGrouping | ByCategory | ByType | ByDueDateRange | ByStatus | Unrecognised

  /** The group an item falls into; `Label` gives the header text. */
  datatype GroupKey =
    | AllItems
    | SavingsGroup | LoanDebtGroup
    | EmiGroup | ConstantExpenseGroup
    | EarlyMonth | MidMonth | LateMonth
    | OngoingGroup | CompletedGroup | ActiveGroup

  /** The header text of a group (the emoji that precedes it is left out). */
  function Label(k: GroupKey): (r: string)
    ensures r != []
  {
    match k
    case AllItems => "All Items"
    case SavingsGroup => "Savings"
    case LoanDebtGroup => "Loan/Debt"
    case EmiGroup => "EMI"
    case ConstantExpenseGroup => "Constant Expense"
    case EarlyMonth => "Early Month (1-10)"
    case MidMonth => "Mid Month (11-20)"
    case LateMonth => "Late Month (21-31)"
    case OngoingGroup => "Ongoing"
    case CompletedGroup => "Completed"
    case ActiveGroup => "Active"
  }

  /** Distinct groups have distinct headers, so grouping by header text (as
      the JavaScript object does) is grouping by key. */
  lemma LabelInjective(a: GroupKey, b: GroupKey)
    requires Label(a) == Label(b)
    ensures a == b
  {
  }

  /** The group of one item under a grouping choice. */
  function KeyOf(e: Item, groupBy: GroupBy, today: int): (k: GroupKey)
    ensures groupBy == ByDueDateRange ==>
      k == (if e.dueDay <= 10 then EarlyMonth else if e.dueDay <= 20 then MidMonth else LateMonth)
    ensures groupBy == ByStatus ==>
      k == (if e.endDate.None? then OngoingGroup else if IsCompleted(e, today) then CompletedGroup else ActiveGroup)
    ensures groupBy == ByCategory ==> k == (if e.category == Savings then SavingsGroup else LoanDebtGroup)
    ensures groupBy == ByType ==> k == (if e.kind == Emi then EmiGroup else ConstantExpenseGroup)
    ensures groupBy == NoGrouping || groupBy == Unrecognised ==> k == AllItems
  {
    match groupBy
    case ByCategory => if e.category == Savings then SavingsGroup else LoanDebtGroup
    case ByType => if e.kind == Emi then EmiGroup else ConstantExpenseGroup
    case ByDueDateRange =>
      var day := e.dueDay;
      if day <= 10 then EarlyMonth else if day <= 20 then MidMonth else LateMonth
    case ByStatus =>
      if e.endDate.None? then OngoingGroup
      else
        var days := e.endDate.value - today;
        if days < 0 then CompletedGroup else ActiveGroup
    case _ => AllItems
  }

  datatype Group = Group(key: GroupKey, members: seq<Item>)

  /** The items with key k, in their original order. */
  function Bucket(emis: seq<Item>, groupBy: GroupBy, today: int, k: GroupKey): seq<Item> {
    Filter(emis, (e: Item) => KeyOf(e, groupBy, today) == k)
  }

  lemma BucketSnoc(emis: seq<Item>, x: Item, groupBy: GroupBy, today: int, k: GroupKey)
    ensures Bucket(emis + [x], groupBy, today, k) == Bucket(emis, groupBy, today, k) + (if KeyOf(x, groupBy, today) == k then [x] else [])
  {
    FilterSnoc(emis, x, (e: Item) => KeyOf(e, groupBy, today) == k);
  }

  /** A group keeps the relative order of its members. */
  lemma BucketKeepsOrder(emis: seq<Item>, groupBy: GroupBy, today: int, k: GroupKey)
    ensures IsSubsequence(Bucket(emis, groupBy, today, k), emis)
  {
    FilterIsSubsequence(emis, (e: Item) => KeyOf(e, groupBy, today) == k);
  }

  predicate DistinctKeys(groups: seq<Group>) {
    forall a, b :: 0 <= a < b < |groups| ==> groups[a].key != groups[b].key
  }

  /** The number of items over all groups. */
  function Size(groups: seq<Group>): nat {
    if groups == [] then 0 else Size(groups[..|groups| - 1]) + |groups[|groups| - 1].members|
  }

  lemma {:induction false} SizeUpdate(groups: seq<Group>, j: int, g: Group)
    requires 0 <= j < |groups|
    ensures Size(groups[j := g]) == Size(groups) - |groups[j].members| + |g.members|
  {
    var n := |groups|;
    if j < n - 1 {
      assert groups[j := g][..n - 1] == groups[..n - 1][j := g];
      SizeUpdate(groups[..n - 1], j, g);
    } else {
      assert groups[j := g][..n - 1] == groups[..n - 1];
    }
  }

  lemma SizeSnoc(groups: seq<Group>, g: Group)
    ensures Size(groups + [g]) == Size(groups) + |g.members|
  {
    assert (groups + [g])[..|groups|] == groups;
  }

  /** Where the group with key k sits, or |groups| when there is none yet. */
  function IndexOfKey(groups: seq<Group>, k: GroupKey): (j: nat)
    ensures j <= |groups|
    ensures j < |groups| ==> groups[j].key == k
    ensures j == |groups| ==> forall i :: 0 <= i < |groups| ==> groups[i].key != k
  {
    if groups == [] then 0
    else if groups[0].key == k then 0
    else 1 + IndexOfKey(groups[1..], k)
  }

  /** Each group holds exactly the items with its key, and is not empty. */
  predicate MembersMatchKeys(groups: seq<Group>, items: seq<Item>, groupBy: GroupBy, today: int) {
    forall j :: 0 <= j < |groups| ==>
      groups[j].members == Bucket(items, groupBy, today, groups[j].key) && groups[j].members != []
  }

  /** The key of every item has a group. */
  predicate KeysCovered(groups: seq<Group>, items: seq<Item>, groupBy: GroupBy, today: int) {
    forall k :: 0 <= k < |items| ==>
      exists j :: 0 <= j < |groups| && groups[j].key == KeyOf(items[k], groupBy, today)
  }

  /** groups is the grouping of items: distinct keys, each group holding
      exactly the items with its key, every item's key present, and as many
      members over all groups as there are items. */
  predicate IsGrouping(groups: seq<Group>, items: seq<Item>, groupBy: GroupBy, today: int) {
    && DistinctKeys(groups)
    && MembersMatchKeys(groups, items, groupBy, today)
    && KeysCovered(groups, items, groupBy, today)
    && Size(groups) == |items|
  }

  /** A key that no group has is the key of no item. */
  lemma UncoveredKeyIsEmpty(groups: seq<Group>, items: seq<Item>, groupBy: GroupBy, today: int, key: GroupKey)
    requires KeysCovered(groups, items, groupBy, today)
    requires forall j :: 0 <= j < |groups| ==> groups[j].key != key
    ensures Bucket(items, groupBy, today, key) == []
  {
    forall k | 0 <= k < |items|
      ensures KeyOf(items[k], groupBy, today) != key
    {
      var j :| 0 <= j < |groups| && groups[j].key == KeyOf(items[k], groupBy, today);
    }
    FilterKeepsNone(items, (e: Item) => KeyOf(e, groupBy, today) == key);
  }

  lemma CoveredSnoc(groups: seq<Group>, groups': seq<Group>, items: seq<Item>, x: Item, j: int, groupBy: GroupBy, today: int)
    requires KeysCovered(groups, items, groupBy, today)
    requires |groups| <= |groups'|
    requires forall i :: 0 <= i < |groups| ==> groups'[i].key == groups[i].key
    requires 0 <= j < |groups'| && groups'[j].key == KeyOf(x, groupBy, today)
    ensures KeysCovered(groups', items + [x], groupBy, today)
  {
    forall k | 0 <= k < |items + [x]|
      ensures exists i :: 0 <= i < |groups'| && groups'[i].key == KeyOf((items + [x])[k], groupBy, today)
    {
      if k == |items| {
        assert groups'[j].key == KeyOf((items + [x])[k], groupBy, today);
      } else {
        assert (items + [x])[k] == items[k];
        var i :| 0 <= i < |groups| && groups[i].key == KeyOf(items[k], groupBy, today);
        assert groups'[i].key == KeyOf((items + [x])[k], groupBy, today);
      }
    }
  }

  /** An item whose key has no group yet opens a new group at the end. */
  lemma OpenGroup(groups: seq<Group>, items: seq<Item>, x: Item, items': seq<Item>, groupBy: GroupBy, today: int)
    requires IsGrouping(groups, items, groupBy, today)
    requires forall j :: 0 <= j < |groups| ==> groups[j].key != KeyOf(x, groupBy, today)
    requires items' == items + [x]
    ensures IsGrouping(groups + [Group(KeyOf(x, groupBy, today), [x])], items', groupBy, today)
  {
    var key := KeyOf(x, groupBy, today);
    var groups' := groups + [Group(key, [x])];
    UncoveredKeyIsEmpty(groups, items, groupBy, today, key);
    MembersAfterOpen(groups, items, x, groupBy, today);
    SizeSnoc(groups, Group(key, [x]));
    CoveredSnoc(groups, groups', items, x, |groups|, groupBy, today);
  }

  lemma MembersAfterOpen(groups: seq<Group>, items: seq<Item>, x: Item, groupBy: GroupBy, today: int)
    requires MembersMatchKeys(groups, items, groupBy, today)
    requires Bucket(items, groupBy, today, KeyOf(x, groupBy, today)) == []
    requires forall j :: 0 <= j < |groups| ==> groups[j].key != KeyOf(x, groupBy, today)
    ensures MembersMatchKeys(groups + [Group(KeyOf(x, groupBy, today), [x])], items + [x], groupBy, today)
  {
    var groups' := groups + [Group(KeyOf(x, groupBy, today), [x])];
    forall i | 0 <= i < |groups'|
      ensures groups'[i].members == Bucket(items + [x], groupBy, today, groups'[i].key) && groups'[i].members != []
    {
      BucketSnoc(items, x, groupBy, today, groups'[i].key);
    }
  }

  /** An item whose key already has group j joins the end of that group. */
  lemma JoinGroup(groups: seq<Group>, items: seq<Item>, x: Item, items': seq<Item>, j: int, groupBy: GroupBy, today: int)
    requires IsGrouping(groups, items, groupBy, today)
    requires 0 <= j < |groups| && groups[j].key == KeyOf(x, groupBy, today)
    requires items' == items + [x]
    ensures IsGrouping(groups[j := Group(groups[j].key, groups[j].members + [x])], items', groupBy, today)
  {
    var g := Group(groups[j].key, groups[j].members + [x]);
    var groups' := groups[j := g];
    assert DistinctKeys(groups') by {
      assert forall i :: 0 <= i < |groups| ==> groups'[i].key == groups[i].key;
    }
    MembersAfterJoin(groups, items, x, j, groupBy, today);
    SizeUpdate(groups, j, g);
    CoveredSnoc(groups, groups', items, x, j, groupBy, today);
  }

  lemma MembersAfterJoin(groups: seq<Group>, items: seq<Item>, x: Item, j: int, groupBy: GroupBy, today: int)
    requires DistinctKeys(groups) && MembersMatchKeys(groups, items, groupBy, today)
    requires 0 <= j < |groups| && groups[j].key == KeyOf(x, groupBy, today)
    ensures MembersMatchKeys(groups[j := Group(groups[j].key, groups[j].members + [x])], items + [x], groupBy, today)
  {
    var groups' := groups[j := Group(groups[j].key, groups[j].members + [x])];
    forall i | 0 <= i < |groups'|
      ensures groups'[i].members == Bucket(items + [x], groupBy, today, groups'[i].key) && groups'[i].members != []
    {
      BucketSnoc(items, x, groupBy, today, groups'[i].key);
      if i != j {
        assert groups'[i] == groups[i];
        assert groups[i].key != KeyOf(x, groupBy, today);
      }
    }
  }

  /** In a grouping, an item is a member of a group exactly when the group
      has the item's key; with distinct keys, every item is in exactly one
      group. */
  lemma MemberOfItsGroupOnly(groups: seq<Group>, items: seq<Item>, groupBy: GroupBy, today: int)
    requires IsGrouping(groups, items, groupBy, today)
    ensures forall i, j :: 0 <= i < |items| && 0 <= j < |groups| ==>
      (items[i] in groups[j].members <==> groups[j].key == KeyOf(items[i], groupBy, today))
  {
    forall i, j | 0 <= i < |items| && 0 <= j < |groups|
      ensures items[i] in groups[j].members <==> groups[j].key == KeyOf(items[i], groupBy, today)
    {
      FilterMembers(items, (e: Item) => KeyOf(e, groupBy, today) == groups[j].key);
    }
  }

  /** `groupEMIs`: without grouping, one group holding the whole list;
      otherwise one group per key that occurs, in order of first occurrence,
      each holding the items with that key in their original order. */
  method GroupEMIs(emis: seq<Item>, groupBy: GroupBy, today: int) returns (groups: seq<Group>)
    ensures groupBy == NoGrouping ==> groups == [Group(AllItems, emis)]
    ensures groupBy != NoGrouping ==> IsGrouping(groups, emis, groupBy, today)
    ensures Size(groups) == |emis|
  {
    if groupBy == NoGrouping {
      assert [Group(AllItems, emis)][..0] == [];
      return [Group(AllItems, emis)];
    }
    groups := GroupByKey(emis, groupBy, today);
  }

  /** The loop of `groupEMIs`: each item joins the group of its key, which
      is opened at the end when the key is new. */
  method GroupByKey(emis: seq<Item>, groupBy: GroupBy, today: int) returns (groups: seq<Group>)
    ensures IsGrouping(groups, emis, groupBy, today)
  {
    groups := [];
    var i := 0;
    while i < |emis|
      invariant 0 <= i <= |emis|
      invariant IsGrouping(groups, emis[..i], groupBy, today)
    {
      var emi := emis[i];
      var groupKey := KeyOf(emi, groupBy, today);
      var j := IndexOfKey(groups, groupKey);
      assert emis[..i + 1] == emis[..i] + [emi];
      if j == |groups| {
        OpenGroup(groups, emis[..i], emi, emis[..i + 1], groupBy, today);
        groups := groups + [Group(groupKey, [emi])];
      } else {
        JoinGroup(groups, emis[..i], emi, emis[..i + 1], j, groupBy, today);
        groups := groups[j := Group(groupKey, groups[j].members + [emi])];
      }
      i := i + 1;
    }
    assert emis[..i] == emis;
  }
}

=== FILE: import.dfy ===
/** Merging a backup file into the stores (the pure core of `importData`). */
module Import {
  import opened Records
  import opened Archive

  /** What a parsed backup file can be. */
  datatype ImportFile =
    | Backup(active: seq<Item>, archived: seq<ArchivedItem>)  // `{active: [...], archived: [...]}`; a missing `archived` reads as []
    | Legacy(items: seq<Item>)                                // the older export format: a bare array of items
    | Unrecognised                                            // any other JSON value

  datatype ImportOutcome =
    | InvalidFormat                                           // "Invalid file format"; nothing is written
    | Declined                                                // the user did not confirm; nothing is written
    | Imported(active: seq<Item>, archive: seq<ArchivedItem>) // the merged stores

  function ActiveData(file: ImportFile): seq<Item> {
    match file
    case Backup(active, _) => active
    case Legacy(items) => items
    case Unrecognised => []
  }

  function ArchivedData(file: ImportFile): seq<ArchivedItem> {
    if file.Backup? then file.archived else []
  }

  /** An imported item keeps its paid flag only when it is stamped with the
      current month; otherwise flag and stamp are cleared. */
  function Reconcile(e: Item, month: string): (r: Item)
    ensures IsPaid(r, month) == IsPaid(e, month)
    ensures r.paidThisMonth == IsPaid(e, month)
    ensures r.paidMonth == if IsPaid(e, month) then month else ""
    ensures r == e.(paidThisMonth := r.paidThisMonth, paidMonth := r.paidMonth)
  {
    if e.paidThisMonth && e.paidMonth == month then e else e.(paidThisMonth := false, paidMonth := "")
  }

  /** The flag is set only together with the current month's stamp, and a
      cleared flag comes with an empty stamp. */
  predicate Normalised(e: Item, month: string) {
    e.paidThisMonth == IsPaid(e, month) && (!e.paidThisMonth ==> e.paidMonth == "")
  }

  function ReconcileAll(items: seq<Item>, month: string): (r: seq<Item>)
    ensures |r| == |items|
    ensures forall x :: x in r ==> Normalised(x, month)
    ensures forall i :: 0 <= i < |r| ==>
      IsPaid(r[i], month) == IsPaid(items[i], month) &&
      r[i] == items[i].(paidThisMonth := r[i].paidThisMonth, paidMonth := r[i].paidMonth)
  {
    seq(|items|, i requires 0 <= i < |items| => Reconcile(items[i], month))
  }

  /** Reconciling twice is reconciling once, and an item that is paid for the
      current month comes through unchanged. */
  lemma ReconcileIdempotent(items: seq<Item>, month: string)
    ensures ReconcileAll(ReconcileAll(items, month), month) == ReconcileAll(items, month)
    ensures forall i :: 0 <= i < |items| && IsPaid(items[i], month) ==> ReconcileAll(items, month)[i] == items[i]
  {
  }

  /** `importData` after the file has been read: reconcile the imported active
      items, route those whose end date is before `today` to the archive
      (stamped with `now`), and, if the user confirms, append everything to
      the existing stores. */
  method ImportData(file: ImportFile, existingActive: seq<Item>, existingArchive: seq<ArchivedItem>,
                    month: string, today: int, now: int, confirmed: bool)
    returns (outcome: ImportOutcome)
    ensures file.Unrecognised? <==> outcome.InvalidFormat?
    ensures !file.Unrecognised? && !confirmed ==> outcome.Declined?
    ensures !file.Unrecognised? && confirmed ==>
      outcome == Imported(existingActive + StillActive(ReconcileAll(ActiveData(file), month), today),
                          existingArchive + ArchivedData(file) + Stamped(Completed(ReconcileAll(ActiveData(file), month), today), now))
    ensures outcome.Imported? ==>
      && outcome.active[..|existingActive|] == existingActive
      && outcome.archive[..|existingArchive|] == existingArchive
      && |outcome.active| - |existingActive| + |outcome.archive| - |existingArchive| == |ActiveData(file)| + |ArchivedData(file)|
    ensures outcome.Imported? ==> forall i :: |existingActive| <= i < |outcome.active| ==>
      !IsCompleted(outcome.active[i], today) && Normalised(outcome.active[i], month)
  {
    if file.Unrecognised? {
      return InvalidFormat;
    }
    var activeData := ActiveData(file);
    var archivedData := ArchivedData(file);
    activeData := ReconcileAll(activeData, month);
    var stillActive, newlyArchived := SplitCompleted(activeData, today, now);
    assert |stillActive| + |newlyArchived| == |activeData| by {
      SplitIsPartition(activeData, today);
    }
    archivedData := archivedData + newlyArchived;
    if !confirmed {
      return Declined;
    }
    outcome := Imported(existingActive + stillActive, existingArchive + archivedData);
    forall i | |existingActive| <= i < |outcome.active|
      ensures !IsCompleted(outcome.active[i], today) && Normalised(outcome.active[i], month)
    {
      assert outcome.active[i] == stillActive[i - |existingActive|];
      assert stillActive[i - |existingActive|] in activeData;
    }
  }
}

=== FILE: months.dfy ===
/** The "current month" string that payments are stamped with
    (`getCurrentMonth`, script.js): the year, a dash, and the month number
    padded to two digits, e.g. "2024-03". */
module Months {
  import opened Options
  import opened Decimal

  /** `text.padStart(2, "0")`. */
  function PadStart2(s: string): (r: string)
    ensures |r| == if |s| >= 2 then |s| else 2
    ensures |s| >= 2 ==> r == s
    ensures |s| == 1 ==> r == ['0'] + s
  {
    if |s| == 0 then "00" else if |s| == 1 then "0" + s else s
  }

  /** The month string for a calendar year and a zero-based month index
      (`Date.getMonth()`), as `getCurrentMonth` builds it. */
  function FormatMonth(year: nat, monthIndex: int): (r: string)
    requires 0 <= monthIndex < 12
    ensures |r| >= 4 && r[|r| - 3] == '-'
  {
    NatToString(year) + "-" + PadStart2(NatToString(monthIndex + 1))
  }

  /** Reads a month string back into (year, month number 1..12). */
  function ParseMonth(s: string): Option<(nat, nat)>
  {
    if |s| >= 4 && s[|s| - 3] == '-' && AllDigits(s[..|s| - 3]) && AllDigits(s[|s| - 2..])
    then Some((DigitsValue(s[..|s| - 3]), DigitsValue(s[|s| - 2..])))
    else None
  }

  /** The month string determines the year and the month it was made from. */
  lemma FormatMonthRoundTrip(year: nat, monthIndex: int)
    requires 0 <= monthIndex < 12
    ensures ParseMonth(FormatMonth(year, monthIndex)) == Some((year, monthIndex + 1))
  {
    PaddedMonth(monthIndex + 1);
    ParseJoined(NatToString(year), PadStart2(NatToString(monthIndex + 1)));
    DigitsValueOfNatToString(year);
  }

  /** Digits, a dash and two more digits read back as the two numbers. */
  lemma ParseJoined(y: string, m: string)
    requires |y| >= 1 && AllDigits(y) && |m| == 2 && AllDigits(m)
    ensures ParseMonth(y + "-" + m) == Some((DigitsValue(y), DigitsValue(m)))
  {
    var s := y + "-" + m;
    assert s[|s| - 3] == '-';
    assert s[..|s| - 3] == y;
    assert s[|s| - 2..] == m;
  }

  /** A month number padded to two digits reads back as itself. */
  lemma PaddedMonth(n: nat)
    requires 1 <= n <= 12
    ensures |PadStart2(NatToString(n))| == 2
    ensures AllDigits(PadStart2(NatToString(n)))
    ensures DigitsValue(PadStart2(NatToString(n))) == n
  {
    DigitsValueOfNatToString(n);
    var d := NatToString(n);
    var m := PadStart2(d);
    if n < 10 {
      assert m == ['0'] + d;
      assert m[..1] == ['0'] && m[1..] == d;
      assert DigitsValue(['0']) == 0 by {
        assert ['0'][..0] == [];
      }
      assert DigitsValue(m) == DigitValue(d[0]) by {
        assert m[..|m| - 1] == ['0'];
      }
      assert d == [d[0]] && DigitsValue(d) == DigitValue(d[0]) by {
        assert d[..0] == [];
      }
    }
  }

  /** Two different (year, month) pairs never share a stamp, so comparing
      stamps compares months. */
  lemma FormatMonthInjective(y1: nat, m1: int, y2: nat, m2: int)
    requires 0 <= m1 < 12 && 0 <= m2 < 12
    requires FormatMonth(y1, m1) == FormatMonth(y2, m2)
    ensures y1 == y2 && m1 == m2
  {
    FormatMonthRoundTrip(y1, m1);
    FormatMonthRoundTrip(y2, m2);
  }
}

=== FILE: options.dfy ===
/** The optional value used for fields a record may lack (`null` or absent). */
module Options {

  datatype Option<+T> = None | Some(value: T)
}

=== FILE: payments.dfy ===
/** The monthly payment flag: marking, unmarking, and the month rollover
    (`markAsPaid`, `unmarkAsPaid`, `resetPaymentStatusIfNewMonth`). */
module Payments {
  import opened Records

  /** Sets the paid flag of the item at `index` and stamps it with `month`;
      does nothing when the item is already paid for `month`. `changed`
      tells whether the list was written back. */
  method MarkAsPaid(emis: seq<Item>, index: int, month: string) returns (result: seq<Item>, changed: bool)
    requires 0 <= index < |emis|
    ensures changed <==> !IsPaid(emis[index], month)
    ensures |result| == |emis|
    ensures IsPaid(result[index], month)
    ensures result[index] == emis[index].(paidThisMonth := true, paidMonth := month)
    ensures forall j :: 0 <= j < |emis| && j != index ==> result[j] == emis[j]
    ensures !changed ==> result == emis
  {
    changed := !emis[index].paidThisMonth || emis[index].paidMonth != month;
    result := emis;
    if changed {
      result := result[index := result[index].(paidThisMonth := true, paidMonth := month)];
    }
  }

  /** Clears the paid flag and the month stamp of the item at `index`. */
  method UnmarkAsPaid(emis: seq<Item>, index: int) returns (result: seq<Item>)
    requires 0 <= index < |emis|
    ensures |result| == |emis|
    ensures !result[index].paidThisMonth && result[index].paidMonth == ""
    ensures forall month :: !IsPaid(result[index], month)
    ensures result[index] == emis[index].(paidThisMonth := false, paidMonth := "")
    ensures forall j :: 0 <= j < |emis| && j != index ==> result[j] == emis[j]
  {
    result := emis[index := emis[index].(paidThisMonth := false, paidMonth := "")];
  }

  /** The item carries a paid flag for a month other than `month`. */
  predicate IsStale(e: Item, month: string) {
    e.paidThisMonth && e.paidMonth != month
  }

  /** One item after the rollover. */
  function ClearIfStale(e: Item, month: string): (r: Item)
    ensures !IsStale(r, month)
    ensures IsPaid(r, month) == IsPaid(e, month)
    ensures !IsStale(e, month) ==> r == e
    ensures IsStale(e, month) ==> !r.paidThisMonth && r.paidMonth == ""
    ensures r == e.(paidThisMonth := r.paidThisMonth, paidMonth := r.paidMonth)
  {
    if IsStale(e, month) then e.(paidThisMonth := false, paidMonth := "") else e
  }

  /** The whole list after the rollover. */
  function Rollover(emis: seq<Item>, month: string): (r: seq<Item>)
    ensures |r| == |emis|
  {
    seq(|emis|, i requires 0 <= i < |emis| => ClearIfStale(emis[i], month))
  }

  /** The rollover: clears every paid flag whose stamp is not `month`.
      `hasChanges` tells whether the list was written back. */
  method ResetPaymentStatusIfNewMonth(emis: seq<Item>, month: string) returns (result: seq<Item>, hasChanges: bool)
    ensures result == Rollover(emis, month)
    ensures hasChanges <==> exists i :: 0 <= i < |emis| && IsStale(emis[i], month)
    ensures forall i :: 0 <= i < |result| ==> !IsStale(result[i], month)
  {
    result := emis;
    hasChanges := false;
    var i := 0;
    while i < |result|
      invariant 0 <= i <= |result| == |emis|
      invariant forall k :: 0 <= k < i ==> result[k] == ClearIfStale(emis[k], month)
      invariant forall k :: i <= k < |result| ==> result[k] == emis[k]
      invariant hasChanges <==> exists k :: 0 <= k < i && IsStale(emis[k], month)
    {
      if result[i].paidThisMonth && result[i].paidMonth != month {
        result := result[i := result[i].(paidThisMonth := false, paidMonth := "")];
        hasChanges := true;
      }
      i := i + 1;
    }
  }

  /** The rollover never changes which items count as paid this month:
      items paid for `month` stay exactly as they were, and nothing becomes
      paid. */
  lemma RolloverKeepsPaidStatus(emis: seq<Item>, month: string)
    ensures forall i :: 0 <= i < |emis| ==> IsPaid(Rollover(emis, month)[i], month) == IsPaid(emis[i], month)
    ensures forall i :: 0 <= i < |emis| && IsPaid(emis[i], month) ==> Rollover(emis, month)[i] == emis[i]
    ensures forall i :: 0 <= i < |emis| && !IsStale(emis[i], month) ==> Rollover(emis, month)[i] == emis[i]
  {
  }

  /** A second rollover in the same month changes nothing. */
  lemma RolloverIdempotent(emis: seq<Item>, month: string)
    ensures Rollover(Rollover(emis, month), month) == Rollover(emis, month)
  {
  }

  /** After a rollover into a new month, nothing is paid any more
      (every stamp was for an earlier month). */
  lemma RolloverIntoNewMonth(emis: seq<Item>, month: string)
    requires forall i :: 0 <= i < |emis| ==> emis[i].paidMonth != month
    ensures forall i :: 0 <= i < |emis| ==> !Rollover(emis, month)[i].paidThisMonth
  {
  }
}

=== FILE: period.dfy ===
/** The "period left" label and urgency class of an item
    (`calculatePeriodLeft`) and the ordinal suffix of a due day
    (`getDaySuffix`). */
module Period {
  import opened Options
  import opened Decimal
  import opened Records

  /** The urgency class of the label: "normal", "warning" or "critical". */
  datatype Urgency = Normal | Warning | Critical

  datatype PeriodLeft = PeriodLeft(text: string, urgency: Urgency)

  /** `String.prototype.trim` on label text, whose only blank is the space. */
  function Trim(s: string): string {
    TrimEnd(TrimStart(s))
  }

  function TrimStart(s: string): string {
    if s != [] && s[0] == ' ' then TrimStart(s[1..]) else s
  }

  function TrimEnd(s: string): string {
    if s != [] && s[|s| - 1] == ' ' then TrimEnd(s[..|s| - 1]) else s
  }

  /** The text `calculatePeriodLeft` builds from year, month and day counts:
      "Ny " when N > 0, then "Nm " when N > 0, then "Nd" when N > 0 or
      nothing came before, trimmed. */
  function Compose(years: nat, months: nat, days: nat): string {
    Trim(Raw(years, months, days))
  }

  function Raw(years: nat, months: nat, days: nat): string {
    var ym := Part(years, 'y') + Part(months, 'm');
    ym + DayPiece(days, days > 0 || ym == "")
  }

  /** "Nd" when shown, else nothing. */
  function DayPiece(days: nat, show: bool): (r: string)
    ensures show ==> |r| >= 2 && IsDigit(r[0]) && r[|r| - 1] == 'd'
    ensures !show ==> r == ""
  {
    if show then NatToString(days) + "d" else ""
  }

  /** "Ny " or "Nm " when N > 0, else nothing. */
  function Part(n: nat, unit: char): (r: string)
    ensures n > 0 ==> |r| >= 3 && IsDigit(r[0]) && r[|r| - 2] == unit && r[|r| - 1] == ' '
    ensures n == 0 ==> r == ""
  {
    if n > 0 then NatToString(n) + [unit, ' '] else ""
  }

  /** The text for a non-negative day difference as script.js writes it: the
      day count is `diffDays % 30`, taken from the whole difference rather
      than from what is left after the years and months. */
  function PeriodTextAsWritten(diffDays: nat): string {
    Compose(diffDays / 365, (diffDays % 365) / 30, diffDays % 30)
  }

  /** The text for a non-negative day difference, with the day count taken
      from what is left after whole years (365 days) and months (30 days). */
  function PeriodText(diffDays: nat): string {
    Compose(diffDays / 365, (diffDays % 365) / 30, (diffDays % 365) % 30)
  }

  // ---- reading a label back into a number of days ----

  /** Scans a label left to right: digits accumulate a count, and a unit
      letter adds the count times 365 (y), 30 (m) or 1 (d) to the total. */
  function DecodeFrom(s: string, acc: nat, total: int): int
    decreases |s|
  {
    if s == [] then total
    else if IsDigit(s[0]) then DecodeFrom(s[1..], acc * 10 + DigitValue(s[0]), total)
    else if s[0] == 'y' then DecodeFrom(s[1..], 0, total + 365 * acc)
    else if s[0] == 'm' then DecodeFrom(s[1..], 0, total + 30 * acc)
    else if s[0] == 'd' then DecodeFrom(s[1..], 0, total + acc)
    else DecodeFrom(s[1..], 0, total)
  }

  /** The number of days a label stands for. */
  function DaysOf(text: string): int {
    DecodeFrom(text, 0, 0)
  }

  function UnitDays(u: char): nat {
    if u == 'y' then 365 else if u == 'm' then 30 else 1
  }

  lemma {:induction false} DecodeDigits(s: string, rest: string, total: int)
    requires AllDigits(s)
    ensures DecodeFrom(s + rest, 0, total) == DecodeFrom(rest, DigitsValue(s), total)
  {
    if s != [] {
      var s0, c := s[..|s| - 1], s[|s| - 1];
      assert s + rest == s0 + ([c] + rest);
      DecodeDigits(s0, [c] + rest, total);
      assert ([c] + rest)[1..] == rest;
    } else {
      assert s + rest == rest;
    }
  }

  /** One piece "N" followed by a unit letter adds N units to the total. */
  lemma DecodePiece(n: nat, u: char, rest: string, total: int)
    requires u == 'y' || u == 'm' || u == 'd'
    ensures DecodeFrom(NatToString(n) + [u] + rest, 0, total) == DecodeFrom(rest, 0, total + UnitDays(u) * n)
  {
    assert NatToString(n) + [u] + rest == NatToString(n) + ([u] + rest);
    DecodeDigits(NatToString(n), [u] + rest, total);
    DigitsValueOfNatToString(n);
    DecodeUnit(u, rest, n, total);
  }

  /** A unit letter adds the pending count times its length in days. */
  lemma DecodeUnit(u: char, rest: string, acc: nat, total: int)
    requires u == 'y' || u == 'm' || u == 'd'
    ensures DecodeFrom([u] + rest, acc, total) == DecodeFrom(rest, 0, total + UnitDays(u) * acc)
  {
    assert ([u] + rest)[0] == u && ([u] + rest)[1..] == rest;
    assert !IsDigit(u);
  }

  lemma {:induction false} DecodeTrailingSpace(s: string, acc: nat, total: int)
    ensures DecodeFrom(s + " ", acc, total) == DecodeFrom(s, acc, total)
    decreases |s|
  {
    if s != [] {
      assert (s + " ")[1..] == s[1..] + " ";
      var acc' := if IsDigit(s[0]) then acc * 10 + DigitValue(s[0]) else 0;
      var total' := if IsDigit(s[0]) then total
                    else if s[0] == 'y' then total + 365 * acc
                    else if s[0] == 'm' then total + 30 * acc
                    else if s[0] == 'd' then total + acc
                    else total;
      DecodeTrailingSpace(s[1..], acc', total');
    }
  }

  lemma DecodePart(n: nat, u: char, rest: string, total: int)
    requires u == 'y' || u == 'm'
    ensures DecodeFrom(Part(n, u) + rest, 0, total) == DecodeFrom(rest, 0, total + UnitDays(u) * n)
  {
    if n > 0 {
      assert Part(n, u) + rest == NatToString(n) + [u] + ([' '] + rest);
      DecodePiece(n, u, [' '] + rest, total);
      assert ([' '] + rest)[1..] == rest;
    } else {
      assert Part(n, u) + rest == rest;
    }
  }

  /** The untrimmed text stands for years * 365 + months * 30 + days. */
  lemma DecodeRaw(years: nat, months: nat, days: nat)
    ensures DaysOf(Raw(years, months, days)) == 365 * years + 30 * months + days
  {
    var y, m := Part(years, 'y'), Part(months, 'm');
    var show := days > 0 || y + m == "";
    assert Raw(years, months, days) == y + (m + DayPiece(days, show));
    DecodePart(years, 'y', m + DayPiece(days, show), 0);
    DecodePart(months, 'm', DayPiece(days, show), 365 * years);
    DecodeDays(days, show, 365 * years + 30 * months);
  }

  /** The day piece, when shown, adds its count; it is left out only when
      the count is 0. */
  lemma DecodeDays(days: nat, show: bool, total: int)
    requires show || days == 0
    ensures DecodeFrom(DayPiece(days, show), 0, total) == total + days
  {
    if show {
      assert DayPiece(days, show) == NatToString(days) + ['d'] + [];
      DecodePiece(days, 'd', [], total);
    }
  }

  /** Trimming the text does not change what it stands for. */
  lemma DecodeTrim(years: nat, months: nat, days: nat)
    ensures DaysOf(Compose(years, months, days)) == DaysOf(Raw(years, months, days))
    ensures Compose(years, months, days) != []
  {
    var y, m := Part(years, 'y'), Part(months, 'm');
    var d := DayPiece(days, days > 0 || y + m == "");
    var r := Raw(years, months, days);
    assert r == y + m + d;
    LeadingDigit(y, m, d);
    assert TrimStart(r) == r;
    if d != [] {
      assert r[|r| - 1] == d[|d| - 1];
      assert Compose(years, months, days) == r;
    } else {
      assert r == y + m;
      LastPieceTrim(y, m);
      assert Compose(years, months, days) == r[..|r| - 1];
      DecodeTrailingSpace(r[..|r| - 1], 0, 0);
    }
  }

  /** The untrimmed text starts with a digit. */
  lemma LeadingDigit(y: string, m: string, d: string)
    requires y + m + d != []
    requires y != [] ==> IsDigit(y[0])
    requires m != [] ==> IsDigit(m[0])
    requires d != [] ==> IsDigit(d[0])
    ensures IsDigit((y + m + d)[0])
  {
    if y != [] {
      assert (y + m + d)[0] == y[0];
    } else if m != [] {
      assert (y + m + d)[0] == m[0];
    } else {
      assert (y + m + d)[0] == d[0];
    }
  }

  /** Years and months text that ends in a unit and a space trims to the
      text without that space. */
  lemma LastPieceTrim(y: string, m: string)
    requires y + m != []
    requires y != [] ==> |y| >= 2 && y[|y| - 1] == ' ' && y[|y| - 2] != ' '
    requires m != [] ==> |m| >= 2 && m[|m| - 1] == ' ' && m[|m| - 2] != ' '
    ensures |y + m| >= 2
    ensures TrimEnd(y + m) == (y + m)[..|y + m| - 1]
    ensures y + m == (y + m)[..|y + m| - 1] + " "
  {
    var r := y + m;
    var r' := r[..|r| - 1];
    if m != [] {
      assert r'[|r'| - 1] == m[|m| - 2];
    } else {
      assert r == y;
    }
    assert TrimEnd(r') == r';
  }

  /** Reading the label back gives the day difference it was made from. */
  lemma PeriodTextRoundTrip(diffDays: nat)
    ensures DaysOf(PeriodText(diffDays)) == diffDays
    ensures PeriodText(diffDays) != []
  {
    var y, m, d := diffDays / 365, (diffDays % 365) / 30, (diffDays % 365) % 30;
    DecodeTrim(y, m, d);
    DecodeRaw(y, m, d);
  }

  /** Different day differences never share a label. */
  lemma PeriodTextInjective(a: nat, b: nat)
    requires PeriodText(a) == PeriodText(b)
    ensures a == b
  {
    PeriodTextRoundTrip(a);
    PeriodTextRoundTrip(b);
  }

  /** As written, 400 days (one year, one month and five days) is labelled
      "1y 1m 10d", which stands for 405 days. */
  lemma PeriodTextAsWrittenMiscounts()
    ensures PeriodTextAsWritten(400) == "1y 1m 10d"
    ensures DaysOf(PeriodTextAsWritten(400)) == 405
  {
    assert 400 / 365 == 1 && (400 % 365) / 30 == 1 && 400 % 30 == 10;
    RawOf400AsWritten();
    TrimLabel("1y 1m 10d");
    DecodeTrim(1, 1, 10);
    DecodeRaw(1, 1, 10);
  }

  lemma RawOf400AsWritten()
    ensures Raw(1, 1, 10) == "1y 1m 10d"
  {
    assert NatToString(1) == "1";
    assert NatToString(10) == NatToString(1) + "0";
    assert Part(1, 'y') == "1y ";
    assert Part(1, 'm') == "1m ";
  }

  /** A label that starts with a digit and ends in "d" is its own trim. */
  lemma TrimLabel(s: string)
    requires s != [] && IsDigit(s[0]) && s[|s| - 1] == 'd'
    ensures Trim(s) == s
  {
  }

  // ---- the label and its urgency class ----

  /** `calculatePeriodLeft`, given the end date's day difference to today
      (None when the item has no end date). */
  function CalculatePeriodLeft(diffDays: Option<int>, category: Category): (r: PeriodLeft)
    ensures diffDays.None? ==> r == PeriodLeft("Ongoing", Normal)
    ensures diffDays.Some? && diffDays.value < 0 ==> r == PeriodLeft("Completed", Normal)
    ensures diffDays.Some? && diffDays.value >= 0 ==> DaysOf(r.text) == diffDays.value
    ensures diffDays == Some(0) ==> r.text == "0d"
    ensures r.text != []
    ensures category == Savings ==> r.urgency == Normal
    ensures r.urgency == Warning <==> category != Savings && diffDays.Some? && 30 < diffDays.value <= 90
    ensures r.urgency == Critical <==> category != Savings && diffDays.Some? && diffDays.value > 90
  {
    if diffDays.None? then PeriodLeft("Ongoing", Normal)
    else if diffDays.value < 0 then PeriodLeft("Completed", Normal)
    else
      PeriodTextRoundTrip(diffDays.value);
      ZeroDaysText();
      PeriodLeft(PeriodText(diffDays.value), UrgencyOf(diffDays.value, category))
  }

  /** The class of a label for a non-negative day difference: savings are
      always normal; otherwise up to 30 days is normal, up to 90 a warning,
      and beyond that critical. */
  function UrgencyOf(diffDays: nat, category: Category): Urgency {
    if category == Savings then Normal
    else if diffDays <= 30 then Normal
    else if diffDays <= 90 then Warning
    else Critical
  }

  /** A zero difference is labelled "0d": the day piece is shown when nothing
      came before it. */
  lemma ZeroDaysText()
    ensures PeriodText(0) == "0d"
  {
    assert NatToString(0) == "0";
    assert Raw(0, 0, 0) == "0d";
    TrimLabel("0d");
  }

  /** `calculatePeriodLeft` exactly as script.js computes it, with the day
      count taken from the whole difference. It has the same class as the
      corrected label, and the same text below one year; from one year on
      the text can stand for more days than the difference (see
      `PeriodTextAsWrittenMiscounts`). */
  function CalculatePeriodLeftAsWritten(diffDays: Option<int>, category: Category): (r: PeriodLeft)
    ensures diffDays.None? ==> r == PeriodLeft("Ongoing", Normal)
    ensures diffDays.Some? && diffDays.value < 0 ==> r == PeriodLeft("Completed", Normal)
    ensures r.text != []
    ensures r.urgency == CalculatePeriodLeft(diffDays, category).urgency
    ensures diffDays.Some? && diffDays.value < 365 ==> r == CalculatePeriodLeft(diffDays, category)
    ensures diffDays == Some(0) ==> r.text == "0d"
    ensures diffDays.Some? && diffDays.value >= 0 ==>
      DaysOf(r.text) == 365 * (diffDays.value / 365) + 30 * ((diffDays.value % 365) / 30) + diffDays.value % 30
  {
    if diffDays.None? then PeriodLeft("Ongoing", Normal)
    else if diffDays.value < 0 then PeriodLeft("Completed", Normal)
    else
      var d: nat := diffDays.value;
      DecodeTrim(d / 365, (d % 365) / 30, d % 30);
      DecodeRaw(d / 365, (d % 365) / 30, d % 30);
      assert d < 365 ==> d % 365 == d;
      PeriodLeft(PeriodTextAsWritten(d), UrgencyOf(d, category))
  }

  function Rank(u: Urgency): nat {
    match u
    case Normal => 0
    case Warning => 1
    case Critical => 2
  }

  /** Among items that are still running, a later end date never gives a more
      urgent class. */
  lemma UrgencyMonotone(a: int, b: int, category: Category)
    requires 0 <= a <= b
    ensures Rank(CalculatePeriodLeft(Some(b), category).urgency) >= Rank(CalculatePeriodLeft(Some(a), category).urgency)
  {
  }

  // ---- ordinal suffix of a due day ----

  /** The quotient rounded toward zero, as C-family languages and
      JavaScript's `Math.trunc(a / b)` round it. */
  function TruncDiv(a: int, b: int): int
    requires b > 0
  {
    if a >= 0 then a / b else -((-a) / b)
  }

  /** JavaScript's `%` on integers: the remainder takes the sign of the
      dividend. */
  function JsRem(a: int, b: int): (r: int)
    requires b > 0
    ensures -b < r < b
    ensures a >= 0 ==> r == a % b
    ensures a < 0 ==> r <= 0
    ensures a == b * TruncDiv(a, b) + r
  {
    if a >= 0 then
      a % b
    else
      var q := (-a) / b;
      assert -a == b * q + (-a) % b;
      assert b * -q == -(b * q);
      -((-a) % b)
  }

  /** `getDaySuffix`. */
  function DaySuffix(day: int): (r: string)
    ensures r == "st" || r == "nd" || r == "rd" || r == "th"
    ensures 11 <= day <= 13 ==> r == "th"
  {
    if 11 <= day <= 13 then "th"
    else match JsRem(day, 10)
      case 1 => "st"
      case 2 => "nd"
      case 3 => "rd"
      case _ => "th"
  }

  /** For the days of a month the suffix is the English ordinal one; zero and
      negative days get "th". */
  lemma DaySuffixOrdinal(day: int)
    ensures 1 <= day <= 31 ==>
      DaySuffix(day) == (if day == 1 || day == 21 || day == 31 then "st"
                         else if day == 2 || day == 22 then "nd"
                         else if day == 3 || day == 23 then "rd"
                         else "th")
    ensures day <= 0 ==> DaySuffix(day) == "th"
  {
  }
}

=== FILE: records.dfy ===
/** The stored records of the tracker: an active item (an EMI or a constant
    monthly expense) and an archived item. Dates are day numbers; amounts are
    whole currency units. */
module Records {
  import opened Options

  /** The item's `type`: "emi" (a loan or savings instalment) or "expense"
      (a constant monthly expense). */
  datatype Kind = Emi | ConstantExpense

  /** The item's `emiCategory`: "savings" or "expense" (shown as Loan/Debt).
      A record without a category is read as Debt wherever it is used. */
  datatype Category = Savings | Debt

  /** One tracked obligation. `paidThisMonth` and `paidMonth` are the
      record's `isPaidThisMonth` flag and its `currentMonth` stamp. */
  datatype Item = Item(
    kind: Kind,
    category: Category,
    name: string,
    amount: int,
    dueDay: int,
    endDate: Option<int>,
    totalAmount: Option<int>,
    principalPaid: Option<int>,
    interestPaid: Option<int>,
    paidThisMonth: bool,
    paidMonth: string)

  /** An item moved to the archive, with the moment it was archived. */
  datatype ArchivedItem = ArchivedItem(item: Item, archivedDate: int)

  /** An item counts as paid only when its flag is set AND its stamp is the
      current month: a stale stamp means "not paid this month". */
  predicate IsPaid(e: Item, month: string) {
    e.paidThisMonth && e.paidMonth == month
  }

  /** The item's end date lies strictly before today. */
  predicate IsCompleted(e: Item, today: int) {
    e.endDate.Some? && e.endDate.value < today
  }

  /** `(x || 0)` for an optional amount. */
  function OrZero(x: Option<int>): int {
    if x.Some? then x.value else 0
  }

  /** The records an archive holds, without their archive timestamps. */
  function ItemsOf(archive: seq<ArchivedItem>): (r: seq<Item>)
    ensures |r| == |archive|
    ensures forall i :: 0 <= i < |r| ==> r[i] == archive[i].item
  {
    seq(|archive|, i requires 0 <= i < |archive| => archive[i].item)
  }

  /** `{...item, archivedDate: now}` for every item, in order. */
  function Stamped(items: seq<Item>, now: int): (r: seq<ArchivedItem>)
    ensures ItemsOf(r) == items
    ensures forall i :: 0 <= i < |r| ==> r[i].archivedDate == now
  {
    seq(|items|, i requires 0 <= i < |items| => ArchivedItem(items[i], now))
  }
}

=== FILE: seqs.dfy ===
/** Order-preserving filtering of sequences, the shape of every
    `forEach`/`push` split and every `filter` in the tracker. */
module Seqs {

  /** The elements of s that satisfy p, in their original order. */
  function Filter<T(==)>(s: seq<T>, p: T -> bool): (r: seq<T>)
    ensures |r| <= |s|
  {
    if s == [] then []
    else (if p(s[0]) then [s[0]] else []) + Filter(s[1..], p)
  }

  /** The filtered sequence holds exactly the elements of s that satisfy p. */
  lemma {:induction false} FilterMembers<T>(s: seq<T>, p: T -> bool)
    ensures forall i :: 0 <= i < |Filter(s, p)| ==> Filter(s, p)[i] in s && p(Filter(s, p)[i])
    ensures forall i :: 0 <= i < |s| && p(s[i]) ==> s[i] in Filter(s, p)
  {
    if s != [] {
      FilterMembers(s[1..], p);
      var r := Filter(s, p);
      var head := if p(s[0]) then [s[0]] else [];
      assert r == head + Filter(s[1..], p);
      forall i | 0 <= i < |r|
        ensures r[i] in s && p(r[i])
      {
        if i >= |head| {
          assert r[i] == Filter(s[1..], p)[i - |head|];
        }
      }
      forall i | 0 <= i < |s| && p(s[i])
        ensures s[i] in r
      {
        if i > 0 {
          assert s[i] == s[1..][i - 1];
        }
      }
    }
  }

  /** a is obtained from b by deleting elements (order is kept). */
  predicate IsSubsequence<T(==)>(a: seq<T>, b: seq<T>)
    decreases |b|
  {
    a == [] ||
    (b != [] && ((a[0] == b[0] && IsSubsequence(a[1..], b[1..])) || IsSubsequence(a, b[1..])))
  }

  lemma {:induction false} FilterAppend<T>(a: seq<T>, b: seq<T>, p: T -> bool)
    ensures Filter(a + b, p) == Filter(a, p) + Filter(b, p)
  {
    if a == [] {
      assert a + b == b;
    } else {
      var head := if p(a[0]) then [a[0]] else [];
      assert (a + b)[0] == a[0] && (a + b)[1..] == a[1..] + b;
      assert Filter(a + b, p) == head + Filter(a[1..] + b, p);
      FilterAppend(a[1..], b, p);
      assert Filter(a, p) == head + Filter(a[1..], p);
    }
  }

  /** Filtering a sequence extended by one element: the shape of one loop step. */
  lemma FilterSnoc<T>(s: seq<T>, x: T, p: T -> bool)
    ensures Filter(s + [x], p) == Filter(s, p) + (if p(x) then [x] else [])
  {
    FilterAppend(s, [x], p);
    assert Filter([x], p) == (if p(x) then [x] else []) + Filter([x][1..], p);
  }

  /** Filtering a sequence that may or may not have been extended by `x`. */
  lemma FilterSnocIf<T>(s: seq<T>, x: T, b: bool, p: T -> bool)
    ensures Filter(s + (if b then [x] else []), p) == Filter(s, p) + (if b && p(x) then [x] else [])
  {
    if b {
      FilterSnoc(s, x, p);
    } else {
      assert s + [] == s;
      assert Filter(s, p) + [] == Filter(s, p);
    }
  }

  /** Complementary filters split a sequence into two parts that together
      hold every element exactly as often as the sequence does. */
  lemma {:induction false} FilterPartition<T>(s: seq<T>, p: T -> bool, q: T -> bool)
    requires forall x :: q(x) == !p(x)
    ensures multiset(Filter(s, p)) + multiset(Filter(s, q)) == multiset(s)
    ensures |Filter(s, p)| + |Filter(s, q)| == |s|
  {
    if s != [] {
      FilterPartition(s[1..], p, q);
      assert s == [s[0]] + s[1..];
    }
  }

  /** Filtering keeps the relative order of what it keeps. */
  lemma {:induction false} FilterIsSubsequence<T>(s: seq<T>, p: T -> bool)
    ensures IsSubsequence(Filter(s, p), s)
  {
    if s != [] {
      FilterIsSubsequence(s[1..], p);
      if p(s[0]) {
        assert Filter(s, p)[0] == s[0] && Filter(s, p)[1..] == Filter(s[1..], p);
      } else {
        assert Filter(s, p) == Filter(s[1..], p);
      }
    }
  }

  /** A filter that keeps everything is the identity. */
  lemma {:induction false} FilterKeepsAll<T>(s: seq<T>, p: T -> bool)
    requires forall i :: 0 <= i < |s| ==> p(s[i])
    ensures Filter(s, p) == s
  {
    if s != [] {
      FilterKeepsAll(s[1..], p);
      assert s == [s[0]] + s[1..];
    }
  }

  /** A filter that keeps nothing gives the empty sequence. */
  lemma {:induction false} FilterKeepsNone<T>(s: seq<T>, p: T -> bool)
    requires forall i :: 0 <= i < |s| ==> !p(s[i])
    ensures Filter(s, p) == []
  {
    if s != [] {
      FilterKeepsNone(s[1..], p);
    }
  }
}

=== FILE: summary.dfy ===
/** Money totals: the total shown in a group header (`calculateGroupTotal`)
    and the summary cards (`updateSummary`). */
module Summary {
  import opened Records
  import opened Seqs

  /** An item that still has to be paid: not paid for `month` and not past
      its end date. */
  predicate IsDue(e: Item, month: string, today: int) {
    !IsPaid(e, month) && !IsCompleted(e, today)
  }

  /** The items still to be paid, in order. */
  function Outstanding(items: seq<Item>, month: string, today: int): seq<Item> {
    Filter(items, (e: Item) => IsDue(e, month, today))
  }

  predicate IsDebt(e: Item) {
    e.category != Savings
  }

  predicate IsSavings(e: Item) {
    e.category == Savings
  }

  /** The outstanding items of the Loan/Debt category. */
  function DebtDue(items: seq<Item>, month: string, today: int): seq<Item> {
    Filter(Outstanding(items, month, today), IsDebt)
  }

  /** The outstanding items of the Savings category. */
  function SavingsDue(items: seq<Item>, month: string, today: int): seq<Item> {
    Filter(Outstanding(items, month, today), IsSavings)
  }

  function SumAmounts(items: seq<Item>): int {
    if items == [] then 0 else SumAmounts(items[..|items| - 1]) + items[|items| - 1].amount
  }

  lemma {:induction false} SumAmountsAppend(a: seq<Item>, b: seq<Item>)
    ensures SumAmounts(a + b) == SumAmounts(a) + SumAmounts(b)
    decreases |b|
  {
    if b == [] {
      assert a + b == a;
    } else {
      assert (a + b)[..|a + b| - 1] == a + b[..|b| - 1];
      SumAmountsAppend(a, b[..|b| - 1]);
    }
  }

  /** Extending the items by one extends each filtered list by at most that
      one item. */
  lemma DueSnoc(items: seq<Item>, x: Item, month: string, today: int)
    ensures Outstanding(items + [x], month, today) == Outstanding(items, month, today) + (if IsDue(x, month, today) then [x] else [])
    ensures DebtDue(items + [x], month, today) == DebtDue(items, month, today) + (if IsDue(x, month, today) && x.category != Savings then [x] else [])
    ensures SavingsDue(items + [x], month, today) == SavingsDue(items, month, today) + (if IsDue(x, month, today) && x.category == Savings then [x] else [])
  {
    FilterSnoc(items, x, (e: Item) => IsDue(e, month, today));
    var o := Outstanding(items, month, today);
    FilterSnocIf(o, x, IsDue(x, month, today), IsDebt);
    FilterSnocIf(o, x, IsDue(x, month, today), IsSavings);
  }

  lemma OutstandingAppend(a: seq<Item>, b: seq<Item>, month: string, today: int)
    ensures Outstanding(a + b, month, today) == Outstanding(a, month, today) + Outstanding(b, month, today)
  {
    FilterAppend(a, b, (e: Item) => IsDue(e, month, today));
  }

  lemma SumAmountsSnoc(items: seq<Item>, x: Item)
    ensures SumAmounts(items + [x]) == SumAmounts(items) + x.amount
  {
    assert (items + [x])[..|items|] == items;
  }

  /** What one more item adds to each running sum. */
  lemma SumsSnoc(items: seq<Item>, x: Item, month: string, today: int)
    ensures SumAmounts(Outstanding(items + [x], month, today)) == SumAmounts(Outstanding(items, month, today)) + (if IsDue(x, month, today) then x.amount else 0)
    ensures SumAmounts(DebtDue(items + [x], month, today)) == SumAmounts(DebtDue(items, month, today)) + (if IsDue(x, month, today) && x.category != Savings then x.amount else 0)
    ensures SumAmounts(SavingsDue(items + [x], month, today)) == SumAmounts(SavingsDue(items, month, today)) + (if IsDue(x, month, today) && x.category == Savings then x.amount else 0)
  {
    DueSnoc(items, x, month, today);
    if IsDue(x, month, today) {
      SumAmountsSnoc(Outstanding(items, month, today), x);
      if x.category == Savings {
        SumAmountsSnoc(SavingsDue(items, month, today), x);
        assert DebtDue(items + [x], month, today) == DebtDue(items, month, today);
      } else {
        SumAmountsSnoc(DebtDue(items, month, today), x);
        assert SavingsDue(items + [x], month, today) == SavingsDue(items, month, today);
      }
    } else {
      assert Outstanding(items + [x], month, today) == Outstanding(items, month, today);
      assert DebtDue(items + [x], month, today) == DebtDue(items, month, today);
      assert SavingsDue(items + [x], month, today) == SavingsDue(items, month, today);
    }
  }

  /** `calculateGroupTotal`: the sum of the amounts of the outstanding items,
      accumulated left to right. */
  function GroupTotal(items: seq<Item>, month: string, today: int): (r: int)
    ensures r == SumAmounts(Outstanding(items, month, today))
  {
    if items == [] then 0
    else
      var init, emi := items[..|items| - 1], items[|items| - 1];
      var sum := GroupTotal(init, month, today);
      assert items == init + [emi];
      SumsSnoc(init, emi, month, today);
      if emi.paidThisMonth && emi.paidMonth == month then sum
      else if emi.endDate.Some? && emi.endDate.value < today then sum
      else sum + emi.amount
  }

  /** Wherever it stands, an item paid for the month or past its end date adds
      nothing to a total, and any other item adds its amount. */
  lemma GroupTotalContribution(a: seq<Item>, x: Item, b: seq<Item>, month: string, today: int)
    ensures GroupTotal(a + [x] + b, month, today) == GroupTotal(a + b, month, today) + (if IsDue(x, month, today) then x.amount else 0)
  {
    OutstandingAppend(a + [x], b, month, today);
    OutstandingAppend(a, b, month, today);
    SumsSnoc(a, x, month, today);
    SumAmountsAppend(Outstanding(a + [x], month, today), Outstanding(b, month, today));
    SumAmountsAppend(Outstanding(a, month, today), Outstanding(b, month, today));
  }

  /** The principal still owed on a loan EMI, never below zero; other items
      owe nothing. */
  function RemainingDebt(e: Item): (r: int)
    ensures r >= 0
    ensures e.kind == Emi && e.category != Savings ==> r >= OrZero(e.totalAmount) - OrZero(e.principalPaid)
    ensures e.kind == Emi && e.category != Savings ==> r == 0 || r == OrZero(e.totalAmount) - OrZero(e.principalPaid)
    ensures e.kind != Emi || e.category == Savings ==> r == 0
  {
    if e.kind == Emi && e.category != Savings then
      var remaining := OrZero(e.totalAmount) - OrZero(e.principalPaid);
      if remaining > 0 then remaining else 0
    else 0
  }

  /** The "total debt" card: the remaining principal of every loan EMI,
      accumulated left to right. */
  function TotalDebt(items: seq<Item>): (r: int)
    ensures r >= 0
  {
    if items == [] then 0 else TotalDebt(items[..|items| - 1]) + RemainingDebt(items[|items| - 1])
  }

  lemma {:induction false} TotalDebtAppend(a: seq<Item>, b: seq<Item>)
    ensures TotalDebt(a + b) == TotalDebt(a) + TotalDebt(b)
    decreases |b|
  {
    if b == [] {
      assert a + b == a;
    } else {
      assert (a + b)[..|a + b| - 1] == a + b[..|b| - 1];
      TotalDebtAppend(a, b[..|b| - 1]);
    }
  }

  /** Wherever it stands, each item adds exactly its remaining principal to
      the total debt. */
  lemma TotalDebtContribution(a: seq<Item>, x: Item, b: seq<Item>)
    ensures TotalDebt(a + [x] + b) == TotalDebt(a + b) + RemainingDebt(x)
  {
    TotalDebtAppend(a + [x], b);
    TotalDebtAppend(a, b);
    assert (a + [x])[..|a|] == a;
  }

  /** Each item's remaining principal is part of the total debt. */
  lemma {:induction false} TotalDebtCoversEachLoan(items: seq<Item>, i: int)
    requires 0 <= i < |items|
    ensures TotalDebt(items) >= RemainingDebt(items[i])
  {
    if i < |items| - 1 {
      TotalDebtCoversEachLoan(items[..|items| - 1], i);
    }
  }

  /** Without loan EMIs the total debt is zero. */
  lemma {:induction false} TotalDebtWithoutLoans(items: seq<Item>)
    requires forall i :: 0 <= i < |items| ==> items[i].kind != Emi || items[i].category == Savings
    ensures TotalDebt(items) == 0
  {
    if items != [] {
      TotalDebtWithoutLoans(items[..|items| - 1]);
    }
  }

  /** The figures of the summary cards. */
  datatype Summary = Summary(totalItems: nat, totalMonthly: int, debtAmount: int, savingsAmount: int, totalDebt: int)

  /** `updateSummary`: counts the items and adds up what is still to be paid
      this month, split into Loan/Debt and Savings, and the total debt. */
  method UpdateSummary(emis: seq<Item>, month: string, today: int) returns (s: Summary)
    ensures s.totalItems == |emis|
    ensures s.totalMonthly == s.debtAmount + s.savingsAmount
    ensures s.totalMonthly == GroupTotal(emis, month, today)
    ensures s.debtAmount == SumAmounts(DebtDue(emis, month, today))
    ensures s.savingsAmount == SumAmounts(SavingsDue(emis, month, today))
    ensures s.totalDebt == TotalDebt(emis) && s.totalDebt >= 0
  {
    var totalMonthly, debtAmount, savingsAmount := 0, 0, 0;
    var i := 0;
    while i < |emis|
      invariant 0 <= i <= |emis|
      invariant totalMonthly == SumAmounts(Outstanding(emis[..i], month, today))
      invariant debtAmount == SumAmounts(DebtDue(emis[..i], month, today))
      invariant savingsAmount == SumAmounts(SavingsDue(emis[..i], month, today))
      invariant totalMonthly == debtAmount + savingsAmount
    {
      var emi := emis[i];
      assert emis[..i + 1] == emis[..i] + [emi];
      SumsSnoc(emis[..i], emi, month, today);
      if !(emi.paidThisMonth && emi.paidMonth == month) && !(emi.endDate.Some? && emi.endDate.value < today) {
        var amount := emi.amount;
        totalMonthly := totalMonthly + amount;
        if emi.category == Savings {
          savingsAmount := savingsAmount + amount;
        } else {
          debtAmount := debtAmount + amount;
        }
      }
      i := i + 1;
    }
    assert emis[..i] == emis;
    s := Summary(|emis|, totalMonthly, debtAmount, savingsAmount, TotalDebt(emis));
  }
}
